=== FILE: README.md ===
# Skill radar filter engine — a Dafny model

The portfolio application keeps an in-memory store of skill records
(`TechItem`) and two display modes: a public portfolio and a password-gated
admin "workshop". This project models the logic underneath both views:

- the closed enumerations `Status`, `Category`, `Visibility` and the
  `TechItem` record (module `Types`);
- the `availableItems` filter: a mode gate (public items only, unless in
  admin mode), a search (lower-cased name contains the lower-cased query,
  or some tag contains it), and a category match (`'all'` or equality),
  together with the `stats` counters, the four status columns of the admin
  workspace and the three `TechGroup` columns of the public
  "Technical Arsenal" (module `Engine`);
- the root state (store, admin flag, login dialog, search text and category
  selection) and its transitions: `toggleItemVisibility`,
  `handleLoginAttempt`, logout, `handleJsonSave`, the search box and the
  category selector, in a small event machine that only lets a user press
  the controls the current mode puts on screen (module `Store`);
- the string primitives `toLowerCase` and `includes` (module `Text`), and
  order-preserving `filter` with the subsequence relation (module `Seqs`).

`JSON.parse` is a parameter `parse: string -> Option<seq<TechItem>>` whose
`None` stands for a thrown parse error. The admin password is a parameter
`secret`; its value is not part of this model. `Scenarios` works a few
concrete stores through the engine.

Three behaviours of the code that a reader might expect otherwise, and that
the model follows:
- the toggle flips every entry carrying the id, not a single entry; ids are
  meant to be unique, and then the two agree;
- tags are a sequence of strings compared as stored; nothing makes them
  lower-case, while the query is lower-cased, so a search can never match an
  upper-case letter of a tag: the query "Core" misses the tag "Core"
  (`Engine.TagsComparedAsStored`);
- logout only leaves admin mode: the search text and category chosen in the
  admin filter bar stay, and public mode has no control to clear them, so
  the public "Technical Arsenal" stays filtered by them until the page is
  reloaded (`Store.StaleSearchEmptiesPublicGroups`).

## Model

| member | source | states |
|---|---|---|
| `Types.ParseStatus` | src/types/index.ts:15 | the `Status` union admits exactly the four status names, each naming one status |
| `Types.StatusesAreClosed` | src/types/index.ts:15 | there are exactly four statuses, each listed once in the column order |
| `Types.StatusRoundTrip` | src/types/index.ts:15 | the string form of every status reads back as that status |
| `Types.ParseCategory` | src/types/index.ts:20-26 | the `Category` union admits exactly the six category names |
| `Types.CategoriesAreClosed` | src/types/index.ts:20-26 | there are exactly six categories, each listed once |
| `Types.CategoryRoundTrip` | src/types/index.ts:20-26 | the string form of every category reads back as that category |
| `Types.ParseVisibility` | src/types/index.ts:33 | the `Visibility` union admits exactly "public" and "private" |
| `Types.VisibilityRoundTrip` | src/types/index.ts:33 | the string form of each visibility reads back as itself |
| `Types.Flip` | src/App.tsx:93 | the flipped visibility always differs from the original |
| `Text.Lower` | src/App.tsx:75 | lower-casing keeps the length, leaves no upper-case letter, shifts A-Z by 32, keeps other characters and is the identity on lower-case strings |
| `Text.LowerIdempotent` | src/App.tsx:75-76 | lower-casing an already lower-cased query changes nothing |
| `Text.ContainsIffOccurs` | src/App.tsx:75-76 | `includes` holds iff the query occurs at some position of the string |
| `Text.EmptyIsContained` | src/App.tsx:75 | every string includes the empty string |
| `Seqs.Filter` | src/App.tsx:74 | a filter keeps exactly the elements satisfying the predicate, every copy of them (its length is their count), as a subsequence of the input |
| `Engine.AvailableItems` | src/App.tsx:72-80 | an item is shown iff it is visible in the mode, matches the search and matches the category; every such entry is kept, as an order-preserving subsequence of the store; outside admin mode no private item is shown |
| `Engine.AvailableIsOnePass` | src/App.tsx:72-79 | the two-stage filter equals one filter by the conjunction of the three conditions |
| `Engine.PublicViewIsAdminViewWithoutPrivate` | src/App.tsx:73 | the public view equals the admin view with the private items removed, order kept |
| `Engine.AdminUnfilteredShowsStore` | src/App.tsx:72-80 | in admin mode, with empty search and category `'all'`, the result is the whole store |
| `Engine.EmptyQueryMatches` | src/App.tsx:75 | the empty query matches every item |
| `Engine.QueryCaseInsensitive` | src/App.tsx:75-76 | filtering with a query equals filtering with its lower-cased form |
| `Engine.EmptyQueryIsWidest` | src/App.tsx:74-78 | the result for any query is a subsequence of, and no longer than, the result for the empty query |
| `Engine.TagsComparedAsStored` | src/App.tsx:76 | a tag "Core" is not matched by the query "Core": tags are not lower-cased |
| `Engine.ComputeStats` | src/App.tsx:82-88 | total is the length of the filtered list, active and learning are the numbers of items with those statuses, active + learning never exceeds total, and the empty list gives zeros |
| `Engine.StatusCountsPartition` | src/types/index.ts:15 | the four status counts add up to the length of any list |
| `Engine.WorkspaceCards` | src/App.tsx:292-299 | a workspace column shows exactly the filtered items of its status, in store order, and as many as its badge counts |
| `Engine.WorkspaceCardsAsWritten` | src/App.tsx:297-299 | as written, a column shows every store item of its status, in store order, whatever the search and category |
| `Engine.WorkspaceBadge` | src/App.tsx:293 | a column badge reads the number of filtered items with the column's status (`availableItems.filter(status).length`), never exceeds the filtered item count, and reads 0 exactly when no filtered item has that status |
| `Engine.WorkspaceAsWrittenIgnoresSearch` | src/App.tsx:292-299 | with the code as written, a search matching nothing leaves a card under a badge reading 0 |
| `Engine.WorkspaceColumnsPartition` | src/App.tsx:275-299 | the badges of the four status columns add up to the filtered item count, so with the corrected columns every filtered item is drawn exactly once |
| `Engine.GroupItems` | src/App.tsx:113-114 | a group holds exactly the filtered items that are active and in one of its categories, every copy, in order |
| `Engine.TechGroup` | src/App.tsx:113-125 | a group renders nothing iff no filtered item is active in its categories; otherwise it lists all of them, in order (the group's items, non-empty) |
| `Engine.ArsenalColumnsPartitionActive` | src/App.tsx:223-241 | each active filtered item appears in exactly one of the three arsenal columns; no other item appears in any |
| `Engine.GroupIsSubseqOfStore` | src/App.tsx:113-114 | a group column is an order-preserving subsequence of the store |
| `Store.InitialState` | src/App.tsx:52-58 | the application starts in public mode with the seed data and the dialog closed, and with the initial empty search and `'all'` shows exactly the public seed entries in seed order |
| `Store.FreshLoadStaysPublic` | src/App.tsx:52-69 | after loading, any session without a login attempt using the secret stays in public mode and keeps the seed data |
| `Store.ToggleItemVisibility` | src/App.tsx:90-97 | the toggle keeps length and order, changes no field but visibility, and changes visibility exactly on the entries carrying the id |
| `Store.ToggleInvolution` | src/App.tsx:90-97 | toggling the same id twice restores the store |
| `Store.ToggleUnknownIdIsNoOp` | src/App.tsx:90-97 | toggling an id no entry carries changes nothing |
| `Store.ToggleHidesFromPublicView` | src/App.tsx:90-97 | after hiding public entries with an id, the public view shows no entry with that id |
| `Store.HandleLoginAttempt` | src/App.tsx:62-69 | admin mode is entered (and the dialog closed) iff the password equals the secret; a mismatch leaves the state unchanged; the store, the search text and the category always stay |
| `Store.Logout` | src/App.tsx:443 | logout returns to public mode and changes nothing else: the store, the dialog flag, the search text and the category selection stay |
| `Store.HandleJsonSave` | src/App.tsx:333-341 | a failed parse leaves the state unchanged; a successful one replaces the whole store and nothing else |
| `Store.Step` | src/App.tsx:394-514 | in public mode no action changes the store, the search or the category, and admin mode is entered only by a login attempt with the secret; in admin mode only logout leaves it; the store changes only by a toggle (exactly the toggle's result) or a JSON save (the parsed store, or unchanged on a failed parse); search and category change only by their admin controls; conversely, a login attempt with the secret while the dialog is open enters admin mode and closes the dialog, and in admin mode the search box sets the search text and the selector sets the category |
| `Store.AdminOnlyThroughSecret` | src/App.tsx:52-69 | from public mode, any sequence of actions without a login attempt using the secret stays in public mode and leaves the store, the search and the category unchanged |
| `Store.StaleSearchEmptiesPublicGroups` | src/App.tsx:443-493 | searching "zzz" in admin mode and logging out leaves the public "Languages & Core" group of a one-entry store empty, while a fresh load of that store shows the entry |
| `Scenarios.PublicViewHidesPrivate` | src/App.tsx:72-80 | a store of a public and a private entry shows only the public one to the public |
| `Scenarios.AdminViewShowsBoth` | src/App.tsx:72-80 | the admin sees both entries in store order |
| `Scenarios.SearchIsCaseInsensitiveOnNames` | src/App.tsx:75-76 | the query "rust" finds the entry named "Rust" and nothing else |
| `Scenarios.AdminStats` | src/App.tsx:82-88 | the two active entries give counters total 2, active 2, learning 0 |

## Left out

- Rendering: the JSX views, `Card`, `LoginModal`, `ProjectModal`, `VisibilityIcon` and the icons of `getIconForCategory` are presentation.
- `useState`/`useMemo` reactivity: the model recomputes the derived views as pure functions of the state.
- `downloadConfig` and `JSON.stringify`: browser I/O (Blob, object URL, DOM link).
- The internals of `JSON.parse`: a foreign library call, passed in as the `parse` parameter.
- Store.HandleJsonSave: `JSON.parse` in the application may yield any value, including records with unknown category or status strings or no array at all; the model only admits a parsed sequence of well-typed records.
- `alert` notices after a failed login or a save: user-visible messages only.
- The admin/workspace tab switch (`activeTab`) and the selected project dialog: they change which panel is drawn, never the store or the filters. Store.Step therefore allows the filter bar, the toggles and the JSON editor whenever admin mode is on, although the application draws the filter bar and toggles only on the workshop tab and the editor only on the config tab.
- The category `<select>` that offers `'all'` and four of the six categories (soft-skills and business cannot be chosen there): a UI detail; the engine accepts every category.
- The seed data and the password value: the store's initial contents and the secret are parameters.
- Text.Lower: maps only the ASCII letters A-Z; JavaScript's `toLowerCase` also folds non-ASCII letters.
- `Project` and `Certificate` records: displayed as static lists and never filtered.

## Findings

| source | as written | input that shows it | evidently intended | confidence | as-written member | corrected member |
|---|---|---|---|---|---|---|
| src/App.tsx:292-299 | the cards of a workspace column are `items.filter(status)`, drawn from the whole store, while the badge above counts `availableItems.filter(status)` | admin mode, store holding one active item "Bash" tagged "devops", query "zzz": the Active column draws 1 card under a badge reading 0 | the cards come from `availableItems`, so the search and category selector in the filter bar narrow the columns and each badge counts its own cards | medium; not executed | `Engine.WorkspaceCardsAsWritten`, shown by `Engine.WorkspaceAsWrittenIgnoresSearch` | `Engine.WorkspaceCards`, with `Engine.WorkspaceColumnsPartition` |

=== FILE: engine.dfy ===
/** The filter/group engine of the skill radar: the three-stage
    `availableItems` filter, the summary counters, the status columns of
    the admin workspace and the category groups of the public
    "Technical Arsenal". Every operation is a pure function of the store
    and the filter criteria. */
module Engine {
  import opened Wrappers
  import opened Text
  import opened Seqs
  import opened Types

  /** The category selector: the wildcard `'all'` or one category. */
  datatype CategoryFilter = All | Only(category: Category)

  /** Stage 1, the mode gate: outside admin mode only public items pass. */
  predicate VisibleInMode(item: TechItem, isAdmin: bool) {
    isAdmin || item.visibility == Public
  }

  /** Stage 2, the search: the lower-cased name contains the lower-cased
      query, or some tag, compared as stored, contains it. */
  predicate MatchesSearch(item: TechItem, query: string) {
    || Contains(Lower(item.name), Lower(query))
    || exists t :: t in item.tags && Contains(t, Lower(query))
  }

  /** Stage 3, the category match. */
  predicate MatchesCategory(item: TechItem, filter: CategoryFilter) {
    filter.All? || item.category == filter.category
  }

  /** An item is shown iff it passes all three stages. */
  predicate Selected(item: TechItem, isAdmin: bool, query: string, filter: CategoryFilter) {
    VisibleInMode(item, isAdmin) && MatchesSearch(item, query) && MatchesCategory(item, filter)
  }

  function IsPublic(): TechItem -> bool {
    (i: TechItem) => i.visibility == Public
  }

  function SearchAndCategory(query: string, filter: CategoryFilter): TechItem -> bool {
    (i: TechItem) => MatchesSearch(i, query) && MatchesCategory(i, filter)
  }

  function SelectedBy(isAdmin: bool, query: string, filter: CategoryFilter): TechItem -> bool {
    (i: TechItem) => Selected(i, isAdmin, query, filter)
  }

  function HasStatus(s: Status): TechItem -> bool {
    (i: TechItem) => i.status == s
  }

  /** `availableItems`: the public items (all items in admin mode), then
      those matching the search and the category, in store order. */
  function AvailableItems(items: seq<TechItem>, isAdmin: bool, query: string, filter: CategoryFilter): (r: seq<TechItem>)
    ensures forall x :: x in r <==> x in items && Selected(x, isAdmin, query, filter)
    ensures IsSubseq(r, items)
    ensures |r| == CountWhere(items, SelectedBy(isAdmin, query, filter))
    ensures !isAdmin ==> forall x :: x in r ==> x.visibility == Public
  {
    var data := if !isAdmin then Filter(items, IsPublic()) else items;
    var r := Filter(data, SearchAndCategory(query, filter));
    if !isAdmin then
      SubseqTrans(r, data, items);
      FilterFuse(items, IsPublic(), SearchAndCategory(query, filter), SelectedBy(isAdmin, query, filter));
      r
    else
      FilterCongruent(items, SearchAndCategory(query, filter), SelectedBy(isAdmin, query, filter));
      r
  }

  /** The two-stage filter equals one pass with the combined condition. */
  lemma AvailableIsOnePass(items: seq<TechItem>, isAdmin: bool, query: string, filter: CategoryFilter)
    ensures AvailableItems(items, isAdmin, query, filter) == Filter(items, SelectedBy(isAdmin, query, filter))
  {
    if !isAdmin {
      FilterFuse(items, IsPublic(), SearchAndCategory(query, filter), SelectedBy(isAdmin, query, filter));
    } else {
      FilterCongruent(items, SearchAndCategory(query, filter), SelectedBy(isAdmin, query, filter));
    }
  }

  /** The public view is exactly the admin view with the private items
      removed, in the same order. */
  lemma PublicViewIsAdminViewWithoutPrivate(items: seq<TechItem>, query: string, filter: CategoryFilter)
    ensures AvailableItems(items, false, query, filter) == Filter(AvailableItems(items, true, query, filter), IsPublic())
  {
    var both := SelectedBy(false, query, filter);
    FilterFuse(items, IsPublic(), SearchAndCategory(query, filter), both);
    FilterFuse(items, SearchAndCategory(query, filter), IsPublic(), both);
  }

  /** In admin mode with an empty search and the wildcard category every
      item is shown, in store order. */
  lemma AdminUnfilteredShowsStore(items: seq<TechItem>)
    ensures AvailableItems(items, true, "", All) == items
  {
    forall x | x in items
      ensures SearchAndCategory("", All)(x)
    {
      EmptyQueryMatches(x);
    }
    FilterKeepsAll(items, SearchAndCategory("", All));
  }

  /** The empty query matches every item. */
  lemma EmptyQueryMatches(item: TechItem)
    ensures MatchesSearch(item, "")
  {
    assert Lower("") == "";
    EmptyIsContained(Lower(item.name));
  }

  /** The query only matters through its lower-cased form. */
  lemma QueryCaseInsensitive(items: seq<TechItem>, isAdmin: bool, query: string, filter: CategoryFilter)
    ensures AvailableItems(items, isAdmin, query, filter) == AvailableItems(items, isAdmin, Lower(query), filter)
  {
    LowerIdempotent(query);
    var data := if !isAdmin then Filter(items, IsPublic()) else items;
    FilterCongruent(data, SearchAndCategory(query, filter), SearchAndCategory(Lower(query), filter));
  }

  /** A non-empty query never shows more than the empty one: its result is
      a subsequence of the empty-query result. */
  lemma EmptyQueryIsWidest(items: seq<TechItem>, isAdmin: bool, query: string, filter: CategoryFilter)
    ensures IsSubseq(AvailableItems(items, isAdmin, query, filter), AvailableItems(items, isAdmin, "", filter))
    ensures |AvailableItems(items, isAdmin, query, filter)| <= |AvailableItems(items, isAdmin, "", filter)|
  {
    var data := if !isAdmin then Filter(items, IsPublic()) else items;
    forall x | x in data
      ensures SearchAndCategory(query, filter)(x) ==> SearchAndCategory("", filter)(x)
    {
      EmptyQueryMatches(x);
    }
    FilterMonotone(data, SearchAndCategory(query, filter), SearchAndCategory("", filter));
    SubseqBounds(AvailableItems(items, isAdmin, query, filter), AvailableItems(items, isAdmin, "", filter));
  }

  /** Tags are not lower-cased: a tag written "Core" does not match the
      query "Core", because the query is lower-cased to "core". */
  lemma TagsComparedAsStored()
    ensures !MatchesSearch(TechItem("t", "Go", Tools, Active, Public, "", ["Core"]), "Core")
  {
    var item := TechItem("t", "Go", Tools, Active, Public, "", ["Core"]);
    var lq := Lower("Core");
    assert lq[0] == 'c';
    if Contains(Lower("Go"), lq) {
      ContainsKeepsChars(Lower("Go"), lq, 'c');
      assert false;
    }
    forall t | t in item.tags
      ensures !Contains(t, lq)
    {
      if Contains(t, lq) {
        ContainsKeepsChars(t, lq, 'c');
        assert false;
      }
    }
  }

  /** The counters shown above the admin workspace. */
  datatype Stats = Stats(total: nat, active: nat, learning: nat)

  /** `stats`: total, active and learning counts of the filtered list. */
  function ComputeStats(available: seq<TechItem>): (s: Stats)
    ensures s.total == |available|
    ensures s.active == CountWhere(available, HasStatus(Active))
    ensures s.learning == CountWhere(available, HasStatus(Learning))
    ensures s.active + s.learning <= s.total
    ensures available == [] ==> s == Stats(0, 0, 0)
  {
    StatusCountsPartition(available);
    Stats(|available|, |Filter(available, HasStatus(Active))|, |Filter(available, HasStatus(Learning))|)
  }

  /** Every item has exactly one of the four statuses, so the four status
      counts add up to the length of the list. */
  lemma {:induction false} StatusCountsPartition(xs: seq<TechItem>)
    ensures CountWhere(xs, HasStatus(Active)) + CountWhere(xs, HasStatus(Learning))
          + CountWhere(xs, HasStatus(Assess)) + CountWhere(xs, HasStatus(Archive)) == |xs|
    decreases |xs|
  {
    if xs != [] {
      StatusCountsPartition(xs[1..]);
    }
  }

  /** Cards of one status column of the admin workspace, drawn from the
      filtered list. */
  function WorkspaceCards(items: seq<TechItem>, query: string, filter: CategoryFilter, s: Status): (r: seq<TechItem>)
    ensures forall x :: x in r <==> x in items && x.status == s && MatchesSearch(x, query) && MatchesCategory(x, filter)
    ensures |r| == WorkspaceBadge(items, query, filter, s)
    ensures IsSubseq(r, items)
  {
    var available := AvailableItems(items, true, query, filter);
    var r := Filter(available, HasStatus(s));
    SubseqTrans(r, available, items);
    r
  }

  /** The same column as the application draws it: straight from the
      store, ignoring the search and the category. */
  function WorkspaceCardsAsWritten(items: seq<TechItem>, query: string, filter: CategoryFilter, s: Status): (r: seq<TechItem>)
    ensures forall x :: x in r <==> x in items && x.status == s
    ensures |r| == CountWhere(items, HasStatus(s))
    ensures IsSubseq(r, items)
  {
    Filter(items, HasStatus(s))
  }

  /** The count shown in a column's header badge: the number of filtered
      items of the column's status. It is 0 exactly when no filtered item
      has that status. */
  function WorkspaceBadge(items: seq<TechItem>, query: string, filter: CategoryFilter, s: Status): (n: nat)
    ensures n <= |AvailableItems(items, true, query, filter)|
    ensures n == 0 <==> forall x :: x in AvailableItems(items, true, query, filter) ==> x.status != s
    ensures n == |Filter(AvailableItems(items, true, query, filter), HasStatus(s))|
  {
    var available := AvailableItems(items, true, query, filter);
    var column := Filter(available, HasStatus(s));
    assert column != [] ==> column[0] in column;
    CountWhere(available, HasStatus(s))
  }

  /** With the store as written, a search that matches nothing still draws
      every card while the badge above them reads 0. */
  lemma WorkspaceAsWrittenIgnoresSearch()
    ensures var items := [TechItem("1", "Bash", Languages, Active, Public, "", ["devops"])];
            |WorkspaceCardsAsWritten(items, "zzz", All, Active)| == 1
            && WorkspaceBadge(items, "zzz", All, Active) == 0
  {
    var item := TechItem("1", "Bash", Languages, Active, Public, "", ["devops"]);
    var items := [item];
    assert Lower("zzz") == "zzz";
    if MatchesSearch(item, "zzz") {
      if Contains(Lower("Bash"), "zzz") {
        ContainsKeepsChars(Lower("Bash"), "zzz", 'z');
      } else {
        ContainsKeepsChars("devops", "zzz", 'z');
      }
      assert false;
    }
    var available := AvailableItems(items, true, "zzz", All);
    assert available == [];
    assert Filter(items, HasStatus(Active)) == [item];
  }

  /** The four workspace columns together hold every filtered item once:
      their badges add up to the item count. Each column draws as many
      cards as its badge says, by the contract of `WorkspaceCards`. */
  lemma WorkspaceColumnsPartition(items: seq<TechItem>, query: string, filter: CategoryFilter)
    ensures WorkspaceBadge(items, query, filter, Active) + WorkspaceBadge(items, query, filter, Learning)
          + WorkspaceBadge(items, query, filter, Assess) + WorkspaceBadge(items, query, filter, Archive)
            == |AvailableItems(items, true, query, filter)|
  {
    StatusCountsPartition(AvailableItems(items, true, query, filter));
  }

  /** The categories of the three "Technical Arsenal" columns. */
  const DataAndAiGroup: seq<Category> := [DataEngineering]
  const CloudAndInfraGroup: seq<Category> := [Devops, Tools]
  const LanguagesAndCoreGroup: seq<Category> := [Languages, Business, SoftSkills]

  /** The items of one `TechGroup`: active items in one of its categories. */
  function GroupItems(available: seq<TechItem>, categories: seq<Category>): (r: seq<TechItem>)
    ensures forall x :: x in r <==> x in available && x.status == Active && x.category in categories
    ensures IsSubseq(r, available)
    ensures |r| == CountWhere(available, InGroup(categories))
  {
    Filter(available, InGroup(categories))
  }

  function InGroup(categories: seq<Category>): TechItem -> bool {
    (i: TechItem) => i.category in categories && i.status == Active
  }

  /** A `TechGroup` renders nothing (None) exactly when no available item
      is active in its categories; otherwise it lists them. */
  function TechGroup(available: seq<TechItem>, categories: seq<Category>): (r: Option<seq<TechItem>>)
    ensures r.None? <==> forall x :: x in available && x.category in categories ==> x.status != Active
    ensures r.Some? ==> r.value == GroupItems(available, categories) && |r.value| > 0
  {
    var g := GroupItems(available, categories);
    if |g| == 0 then None
    else
      assert g[0] in g;
      Some(g)
  }

  /** Every active item of the filtered list appears in exactly one of the
      three arsenal columns; no other item appears in any. */
  lemma ArsenalColumnsPartitionActive(available: seq<TechItem>)
    ensures forall x :: x in available && x.status == Active ==>
      || (x in GroupItems(available, DataAndAiGroup) && x !in GroupItems(available, CloudAndInfraGroup) && x !in GroupItems(available, LanguagesAndCoreGroup))
      || (x !in GroupItems(available, DataAndAiGroup) && x in GroupItems(available, CloudAndInfraGroup) && x !in GroupItems(available, LanguagesAndCoreGroup))
      || (x !in GroupItems(available, DataAndAiGroup) && x !in GroupItems(available, CloudAndInfraGroup) && x in GroupItems(available, LanguagesAndCoreGroup))
    ensures forall x :: x in available && x.status != Active ==>
      x !in GroupItems(available, DataAndAiGroup) + GroupItems(available, CloudAndInfraGroup) + GroupItems(available, LanguagesAndCoreGroup)
  {
    forall x | x in available && x.status == Active
      ensures x.category in DataAndAiGroup + CloudAndInfraGroup + LanguagesAndCoreGroup
    {
      match x.category
      case DataEngineering => assert DataAndAiGroup[0] == x.category;
      case Devops => assert CloudAndInfraGroup[0] == x.category;
      case Tools => assert CloudAndInfraGroup[1] == x.category;
      case Languages => assert LanguagesAndCoreGroup[0] == x.category;
      case Business => assert LanguagesAndCoreGroup[1] == x.category;
      case SoftSkills => assert LanguagesAndCoreGroup[2] == x.category;
    }
  }

  /** A group column lists items of the store, in store order. */
  lemma GroupIsSubseqOfStore(items: seq<TechItem>, isAdmin: bool, query: string, filter: CategoryFilter, categories: seq<Category>)
    ensures IsSubseq(GroupItems(AvailableItems(items, isAdmin, query, filter), categories), items)
  {
    var available := AvailableItems(items, isAdmin, query, filter);
    SubseqTrans(GroupItems(available, categories), available, items);
  }
}

=== FILE: scenarios.dfy ===
/** Worked examples over a two-entry store: a public "Python" and a
    private "Rust", both active languages tagged "core". */
module Scenarios {
  import opened Text
  import opened Seqs
  import opened Types
  import opened Engine

  const Python: TechItem := TechItem("1", "Python", Languages, Active, Public, "", ["core"])
  const Rust: TechItem := TechItem("2", "Rust", Languages, Active, Private, "", ["core"])

  /** Filtering a two-element list keeps each element on its own merit. */
  lemma FilterPair(a: TechItem, b: TechItem, p: TechItem -> bool)
    ensures Filter([a, b], p) == (if p(a) then [a] else []) + (if p(b) then [b] else [])
  {
    assert [a, b][1..] == [b];
    assert [b][1..] == [];
  }

  /** The public view shows only the public entry. */
  lemma PublicViewHidesPrivate()
    ensures AvailableItems([Python, Rust], false, "", All) == [Python]
  {
    EmptyQueryMatches(Python);
    assert Selected(Python, false, "", All);
    assert !Selected(Rust, false, "", All);
    AvailableIsOnePass([Python, Rust], false, "", All);
    FilterPair(Python, Rust, SelectedBy(false, "", All));
  }

  /** The admin view shows both entries in store order. */
  lemma AdminViewShowsBoth()
    ensures AvailableItems([Python, Rust], true, "", All) == [Python, Rust]
  {
    AdminUnfilteredShowsStore([Python, Rust]);
  }

  lemma RustMatchesRust()
    ensures MatchesSearch(Rust, "rust")
  {
    assert Lower("rust") == "rust";
    assert Lower("Rust") == "rust";
    ContainsSelf("rust");
  }

  lemma PythonMissesRust()
    ensures !MatchesSearch(Python, "rust")
  {
    assert Lower("rust") == "rust";
    assert Lower("Python") == "python";
    MissingCharExcludes("python", "rust", 'r');
    MissingCharExcludes("core", "rust", 'u');
    assert Python.tags == ["core"];
  }

  /** Searching "rust" in admin mode finds the entry named "Rust" only. */
  lemma SearchIsCaseInsensitiveOnNames()
    ensures AvailableItems([Python, Rust], true, "rust", All) == [Rust]
  {
    RustMatchesRust();
    PythonMissesRust();
    AvailableIsOnePass([Python, Rust], true, "rust", All);
    FilterPair(Python, Rust, SelectedBy(true, "rust", All));
  }

  /** In admin mode both entries are counted as active. */
  lemma AdminStats()
    ensures ComputeStats(AvailableItems([Python, Rust], true, "", All)) == Stats(2, 2, 0)
  {
    AdminUnfilteredShowsStore([Python, Rust]);
    FilterPair(Python, Rust, HasStatus(Active));
    FilterPair(Python, Rust, HasStatus(Learning));
  }
}

=== FILE: seqs.dfy ===
/** Order-preserving selection over sequences: `Array.prototype.filter`
    and the subsequence relation its results stand in. */
module Seqs {

  /** `a` can be obtained from `b` by deleting elements, keeping order. */
  predicate IsSubseq<T(==)>(a: seq<T>, b: seq<T>)
    decreases |b|
  {
    a == [] || (b != [] && ((a[0] == b[0] && IsSubseq(a[1..], b[1..])) || IsSubseq(a, b[1..])))
  }

  /** `xs.filter(p)`: the elements satisfying `p`, in their original order. */
  function Filter<T(==,!new)>(xs: seq<T>, p: T -> bool): (r: seq<T>)
    ensures |r| == CountWhere(xs, p) <= |xs|
    ensures forall x :: x in r <==> x in xs && p(x)
    ensures IsSubseq(r, xs)
    decreases |xs|
  {
    if xs == [] then []
    else
      var rest := Filter(xs[1..], p);
      assert xs == [xs[0]] + xs[1..];
      if p(xs[0]) then
        assert ([xs[0]] + rest)[1..] == rest;
        [xs[0]] + rest
      else
        rest
  }

  /** Number of elements satisfying `p`, counted one by one. */
  function CountWhere<T>(xs: seq<T>, p: T -> bool): (n: nat)
    ensures n <= |xs|
    decreases |xs|
  {
    if xs == [] then 0
    else (if p(xs[0]) then 1 else 0) + CountWhere(xs[1..], p)
  }

  /** A filter that keeps everything returns its input unchanged. */
  lemma {:induction false} FilterKeepsAll<T(!new)>(xs: seq<T>, p: T -> bool)
    requires forall x :: x in xs ==> p(x)
    ensures Filter(xs, p) == xs
    decreases |xs|
  {
    if xs != [] {
      assert xs[0] in xs;
      FilterKeepsAll(xs[1..], p);
      assert xs == [xs[0]] + xs[1..];
    }
  }

  /** Filters whose predicates agree on the input give the same result. */
  lemma {:induction false} FilterCongruent<T(!new)>(xs: seq<T>, p: T -> bool, q: T -> bool)
    requires forall x :: x in xs ==> p(x) == q(x)
    ensures Filter(xs, p) == Filter(xs, q)
    decreases |xs|
  {
    if xs != [] {
      assert xs[0] in xs;
      FilterCongruent(xs[1..], p, q);
    }
  }

  /** Filtering twice is filtering once by the conjunction, whichever
      stage comes first. */
  lemma {:induction false} FilterFuse<T(!new)>(xs: seq<T>, p: T -> bool, q: T -> bool, pq: T -> bool)
    requires forall x :: x in xs ==> pq(x) == (p(x) && q(x))
    ensures Filter(Filter(xs, p), q) == Filter(xs, pq)
    decreases |xs|
  {
    if xs != [] {
      assert xs[0] in xs;
      FilterFuse(xs[1..], p, q, pq);
      var rest := Filter(xs[1..], p);
      if p(xs[0]) {
        assert Filter(xs, p) == [xs[0]] + rest;
        assert ([xs[0]] + rest)[1..] == rest;
      }
    }
  }

  /** A weaker predicate keeps a super-sequence of what a stronger one keeps. */
  lemma {:induction false} FilterMonotone<T(!new)>(xs: seq<T>, p: T -> bool, q: T -> bool)
    requires forall x :: x in xs ==> p(x) ==> q(x)
    ensures IsSubseq(Filter(xs, p), Filter(xs, q))
    decreases |xs|
  {
    if xs != [] {
      assert xs[0] in xs;
      FilterMonotone(xs[1..], p, q);
      var a := Filter(xs[1..], p);
      var b := Filter(xs[1..], q);
      if p(xs[0]) {
        assert ([xs[0]] + a)[1..] == a;
        assert ([xs[0]] + b)[1..] == b;
      } else if q(xs[0]) {
        assert ([xs[0]] + b)[1..] == b;
        SubseqOfTail(a, xs[0], b);
      }
    }
  }

  /** Prepending to the longer sequence keeps a subsequence a subsequence. */
  lemma SubseqOfTail<T>(a: seq<T>, x: T, b: seq<T>)
    requires IsSubseq(a, b)
    ensures IsSubseq(a, [x] + b)
  {
    assert ([x] + b)[1..] == b;
  }

  /** A subsequence is never longer, and holds only elements of the other. */
  lemma {:induction false} SubseqBounds<T>(a: seq<T>, b: seq<T>)
    requires IsSubseq(a, b)
    ensures |a| <= |b|
    ensures forall x :: x in a ==> x in b
    decreases |b|
  {
    if a != [] {
      if a[0] == b[0] && IsSubseq(a[1..], b[1..]) {
        SubseqBounds(a[1..], b[1..]);
        assert a == [a[0]] + a[1..];
        assert b == [b[0]] + b[1..];
      } else {
        SubseqBounds(a, b[1..]);
        assert b == [b[0]] + b[1..];
      }
    }
  }

  /** Every sequence is a subsequence of itself. */
  lemma {:induction false} SubseqRefl<T>(a: seq<T>)
    ensures IsSubseq(a, a)
    decreases |a|
  {
    if a != [] {
      SubseqRefl(a[1..]);
    }
  }

  /** The subsequence relation is transitive. */
  lemma {:induction false} SubseqTrans<T>(a: seq<T>, b: seq<T>, c: seq<T>)
    requires IsSubseq(a, b)
    requires IsSubseq(b, c)
    ensures IsSubseq(a, c)
    decreases |c|
  {
    if a != [] {
      if IsSubseq(b, c[1..]) {
        SubseqTrans(a, b, c[1..]);
      } else if a[0] == b[0] && IsSubseq(a[1..], b[1..]) {
        SubseqTrans(a[1..], b[1..], c[1..]);
      } else {
        SubseqTrans(a, b[1..], c[1..]);
      }
    }
  }
}

=== FILE: store.dfy ===
/** The item store, the admin mode and the filter criteria at the root of
    the application, and the events that change them: opening and closing
    the login dialog, a login attempt, logout, the search box, the category
    selector, the visibility toggle and the JSON replace. */
module Store {
  import opened Wrappers
  import opened Types
  import opened Seqs
  import Text
  import Engine

  /** Root state: the item store, the admin flag, whether the login dialog
      is open, and the search text and category selection that every view
      is filtered by. */
  datatype AppState = AppState(
    items: seq<TechItem>,
    isAdmin: bool,
    showLoginModal: bool,
    query: string,
    filter: Engine.CategoryFilter)

  /** `availableItems` of a state: what both views draw from. */
  function Shown(st: AppState): seq<TechItem> {
    Engine.AvailableItems(st.items, st.isAdmin, st.query, st.filter)
  }

  /** The state on load: the seed data, public mode, dialog closed, empty
      search and category `'all'`, so a visitor sees exactly the public
      seed entries, in seed order. */
  function InitialState(data: seq<TechItem>): (st: AppState)
    ensures st.items == data && !st.isAdmin && !st.showLoginModal
    ensures Shown(st) == Filter(data, Engine.IsPublic())
  {
    Engine.PublicViewIsAdminViewWithoutPrivate(data, "", Engine.All);
    Engine.AdminUnfilteredShowsStore(data);
    AppState(data, false, false, "", Engine.All)
  }

  /** `toggleItemVisibility`: flips the visibility of every entry carrying
      `id`; every other entry and every other field stays as it was. */
  function ToggleItemVisibility(items: seq<TechItem>, id: string): (r: seq<TechItem>)
    ensures |r| == |items|
    ensures forall i :: 0 <= i < |items| ==> SameExceptVisibility(r[i], items[i])
    ensures forall i :: 0 <= i < |items| ==> (r[i].visibility != items[i].visibility <==> items[i].id == id)
  {
    seq(|items|, i requires 0 <= i < |items| =>
      if items[i].id == id then items[i].(visibility := Flip(items[i].visibility)) else items[i])
  }

  /** Toggling the same id twice restores the store. */
  lemma ToggleInvolution(items: seq<TechItem>, id: string)
    ensures ToggleItemVisibility(ToggleItemVisibility(items, id), id) == items
  {
    var once := ToggleItemVisibility(items, id);
    var twice := ToggleItemVisibility(once, id);
    forall i | 0 <= i < |items|
      ensures twice[i] == items[i]
    {
      assert once[i].id == items[i].id;
    }
  }

  /** Toggling an id that no entry carries changes nothing. */
  lemma ToggleUnknownIdIsNoOp(items: seq<TechItem>, id: string)
    requires forall x :: x in items ==> x.id != id
    ensures ToggleItemVisibility(items, id) == items
  {
    var r := ToggleItemVisibility(items, id);
    forall i | 0 <= i < |items|
      ensures r[i] == items[i]
    {
      assert items[i] in items;
    }
  }

  /** Hiding a public entry removes it from the public view, whatever the
      search and the category. */
  lemma ToggleHidesFromPublicView(items: seq<TechItem>, id: string, query: string, filter: Engine.CategoryFilter)
    requires forall x :: x in items && x.id == id ==> x.visibility == Public
    ensures forall x :: x in Engine.AvailableItems(ToggleItemVisibility(items, id), false, query, filter) ==> x.id != id
  {
    var r := ToggleItemVisibility(items, id);
    forall x | x in Engine.AvailableItems(r, false, query, filter)
      ensures x.id != id
    {
      var i :| 0 <= i < |r| && r[i] == x;
      assert items[i] in items;
    }
  }

  /** `handleLoginAttempt`: admin mode is entered, and the dialog closed,
      only when the password equals the secret; otherwise nothing changes
      beyond the notice shown to the user. */
  function HandleLoginAttempt(st: AppState, password: string, secret: string): (r: AppState)
    ensures r.isAdmin <==> st.isAdmin || password == secret
    ensures password == secret ==> r.isAdmin && !r.showLoginModal
    ensures password != secret ==> r == st
    ensures r.items == st.items
    ensures r.query == st.query && r.filter == st.filter
  {
    if password == secret then st.(isAdmin := true, showLoginModal := false) else st
  }

  /** The logout button: back to public mode. Only the mode changes: the
      store and the search text and category chosen in admin mode stay. */
  function Logout(st: AppState): (r: AppState)
    ensures !r.isAdmin
    ensures r.items == st.items && r.showLoginModal == st.showLoginModal
    ensures r.query == st.query && r.filter == st.filter
  {
    st.(isAdmin := false)
  }

  /** `handleJsonSave`: a document that parses replaces the whole store; one
      that does not leaves the state as it was. `parse` stands for
      `JSON.parse`, whose failure is the None case. */
  function HandleJsonSave(st: AppState, json: string, parse: string -> Option<seq<TechItem>>): (r: AppState)
    ensures parse(json).None? ==> r == st
    ensures parse(json).Some? ==> r.items == parse(json).value
    ensures r.isAdmin == st.isAdmin && r.showLoginModal == st.showLoginModal
    ensures r.query == st.query && r.filter == st.filter
  {
    match parse(json)
    case Some(parsed) => st.(items := parsed)
    case None => st
  }

  /** What the user can do. */
  datatype Event =
    | OpenLogin
    | CloseLogin
    | LoginAttempt(password: string)
    | LogoutClicked
    | SetSearch(text: string)
    | SetCategory(selection: Engine.CategoryFilter)
    | ToggleVisibility(id: string)
    | SaveJson(text: string)

  /** One user action, taking into account which controls are on screen:
      the login key only in public mode, the password form only while the
      dialog is open, and logout, the filter bar (search box and category
      selector), the toggles and the JSON editor only in admin mode. An
      action whose control is not on screen changes nothing. */
  function Step(st: AppState, e: Event, secret: string, parse: string -> Option<seq<TechItem>>): (r: AppState)
    ensures !st.isAdmin ==> r.items == st.items && r.query == st.query && r.filter == st.filter
    ensures r.isAdmin && !st.isAdmin ==> e == LoginAttempt(secret)
    ensures st.isAdmin ==> (!r.isAdmin <==> e == LogoutClicked)
    ensures r.items != st.items ==> st.isAdmin && (e.ToggleVisibility? || e.SaveJson?)
    ensures st.isAdmin && e.ToggleVisibility? ==> r.items == ToggleItemVisibility(st.items, e.id)
    ensures st.isAdmin && e.SaveJson? ==> r.items == (if parse(e.text).Some? then parse(e.text).value else st.items)
    ensures (r.query, r.filter) != (st.query, st.filter) ==> st.isAdmin && (e.SetSearch? || e.SetCategory?)
    ensures !st.isAdmin && st.showLoginModal && e == LoginAttempt(secret) ==> r.isAdmin && !r.showLoginModal
    ensures st.isAdmin && e.SetSearch? ==> r.query == e.text
    ensures st.isAdmin && e.SetCategory? ==> r.filter == e.selection
  {
    match e
    case OpenLogin => if !st.isAdmin then st.(showLoginModal := true) else st
    case CloseLogin => st.(showLoginModal := false)
    case LoginAttempt(password) => if st.showLoginModal then HandleLoginAttempt(st, password, secret) else st
    case LogoutClicked => if st.isAdmin then Logout(st) else st
    case SetSearch(text) => if st.isAdmin then st.(query := text) else st
    case SetCategory(selection) => if st.isAdmin then st.(filter := selection) else st
    case ToggleVisibility(id) => if st.isAdmin then st.(items := ToggleItemVisibility(st.items, id)) else st
    case SaveJson(text) => if st.isAdmin then HandleJsonSave(st, text, parse) else st
  }

  /** The state after a sequence of actions. */
  function Run(st: AppState, events: seq<Event>, secret: string, parse: string -> Option<seq<TechItem>>): AppState
    decreases |events|
  {
    if events == [] then st else Run(Step(st, events[0], secret, parse), events[1..], secret, parse)
  }

  /** Starting in public mode, admin mode is reached only through a login
      attempt with the secret; until then neither the store nor the search
      and category filter ever change. */
  lemma {:induction false} AdminOnlyThroughSecret(st: AppState, events: seq<Event>, secret: string, parse: string -> Option<seq<TechItem>>)
    requires !st.isAdmin
    requires LoginAttempt(secret) !in events
    ensures !Run(st, events, secret, parse).isAdmin
    ensures Run(st, events, secret, parse).items == st.items
    ensures Run(st, events, secret, parse).query == st.query
    ensures Run(st, events, secret, parse).filter == st.filter
    decreases |events|
  {
    if events != [] {
      assert events[0] in events;
      var next := Step(st, events[0], secret, parse);
      assert forall e :: e in events[1..] ==> e in events;
      AdminOnlyThroughSecret(next, events[1..], secret, parse);
    }
  }

  /** After loading, a session that never enters the secret stays in
      public mode and keeps the seed data. */
  lemma FreshLoadStaysPublic(data: seq<TechItem>, events: seq<Event>, secret: string, parse: string -> Option<seq<TechItem>>)
    requires LoginAttempt(secret) !in events
    ensures !Run(InitialState(data), events, secret, parse).isAdmin
    ensures Run(InitialState(data), events, secret, parse).items == data
  {
    AdminOnlyThroughSecret(InitialState(data), events, secret, parse);
  }

  /** An active public language entry, used by the example below. */
  const Bash: TechItem := TechItem("3", "Bash", Languages, Active, Public, "", ["devops"])

  lemma SearchThenLogout(secret: string, parse: string -> Option<seq<TechItem>>)
    ensures Run(AppState([Bash], true, false, "", Engine.All), [SetSearch("zzz"), LogoutClicked], secret, parse)
         == AppState([Bash], false, false, "zzz", Engine.All)
  {
    var admin := AppState([Bash], true, false, "", Engine.All);
    var searched := Step(admin, SetSearch("zzz"), secret, parse);
    assert [SetSearch("zzz"), LogoutClicked][1..] == [LogoutClicked];
    assert Run(admin, [SetSearch("zzz"), LogoutClicked], secret, parse)
        == Run(searched, [LogoutClicked], secret, parse);
  }

  lemma ZzzHidesBash()
    ensures Engine.AvailableItems([Bash], false, "zzz", Engine.All) == []
  {
    assert Text.Lower("zzz") == "zzz";
    Text.MissingCharExcludes(Text.Lower("Bash"), "zzz", 'z');
    Text.MissingCharExcludes("devops", "zzz", 'z');
    assert Bash.tags == ["devops"];
    assert !Engine.MatchesSearch(Bash, "zzz");
  }

  /** The search typed in admin mode outlives logout, and public mode has
      no control to clear it: after searching "zzz" and logging out, the
      "Languages & Core" group of the public view renders nothing, although
      a fresh load of the same store shows its entry there. */
  lemma StaleSearchEmptiesPublicGroups(secret: string, parse: string -> Option<seq<TechItem>>)
    ensures var afterLogout := Run(AppState([Bash], true, false, "", Engine.All), [SetSearch("zzz"), LogoutClicked], secret, parse);
            && !afterLogout.isAdmin
            && Engine.TechGroup(Shown(afterLogout), Engine.LanguagesAndCoreGroup).None?
            && Engine.TechGroup(Shown(InitialState([Bash])), Engine.LanguagesAndCoreGroup).Some?
  {
    SearchThenLogout(secret, parse);
    ZzzHidesBash();
    assert Filter([Bash], Engine.IsPublic()) == [Bash];
    assert Engine.LanguagesAndCoreGroup[0] == Languages;
    assert Bash in Shown(InitialState([Bash]));
  }
}

=== FILE: text.dfy ===
/** String operations the filter engine relies on: `toLowerCase` (ASCII
    letters only) and `includes` (substring search). */
module Text {

  /** Lower-cases one character; only the ASCII letters A-Z change. */
  function LowerChar(c: char): (d: char)
    ensures 'A' <= c <= 'Z' ==> 'a' <= d <= 'z' && d as int - c as int == 32
    ensures !('A' <= c <= 'Z') ==> d == c
  {
    if 'A' <= c <= 'Z' then (c as int + 32) as char else c
  }

  /** True iff the string has no ASCII upper-case letter. */
  predicate IsLower(s: string) {
    forall i :: 0 <= i < |s| ==> !('A' <= s[i] <= 'Z')
  }

  /** `s.toLowerCase()`, restricted to ASCII case mapping. */
  function Lower(s: string): (r: string)
    ensures |r| == |s|
    ensures IsLower(r)
    ensures IsLower(s) ==> r == s
    ensures forall i :: 0 <= i < |s| && 'A' <= s[i] <= 'Z' ==> r[i] as int == s[i] as int + 32
    ensures forall i :: 0 <= i < |s| && !('A' <= s[i] <= 'Z') ==> r[i] == s[i]
  {
    seq(|s|, i requires 0 <= i < |s| => LowerChar(s[i]))
  }

  /** Lower-casing twice is the same as lower-casing once. */
  lemma LowerIdempotent(s: string)
    ensures Lower(Lower(s)) == Lower(s)
  {
  }

  /** `q` is a prefix of `s`. */
  predicate IsPrefix(q: string, s: string) {
    |q| <= |s| && s[..|q|] == q
  }

  /** `s.includes(q)`: `q` occurs somewhere in `s`. */
  predicate Contains(s: string, q: string)
    decreases |s|
  {
    IsPrefix(q, s) || (|s| > 0 && Contains(s[1..], q))
  }

  /** `q` occurs in `s` starting at position `i`. */
  predicate OccursAt(s: string, q: string, i: int) {
    0 <= i && i + |q| <= |s| && s[i..i + |q|] == q
  }

  /** The recursive search agrees with the positional definition of a
      substring, in both directions. */
  lemma {:induction false} ContainsIffOccurs(s: string, q: string)
    ensures Contains(s, q) <==> exists i :: OccursAt(s, q, i)
    decreases |s|
  {
    if Contains(s, q) {
      if IsPrefix(q, s) {
        assert OccursAt(s, q, 0);
      } else {
        ContainsIffOccurs(s[1..], q);
        var j :| OccursAt(s[1..], q, j);
        assert s[1..][j..j + |q|] == s[j + 1..j + 1 + |q|];
        assert OccursAt(s, q, j + 1);
      }
    }
    if exists i :: OccursAt(s, q, i) {
      var i :| OccursAt(s, q, i);
      if i == 0 {
        assert IsPrefix(q, s);
      } else {
        assert s[1..][i - 1..i - 1 + |q|] == s[i..i + |q|];
        assert OccursAt(s[1..], q, i - 1);
        ContainsIffOccurs(s[1..], q);
      }
    }
  }

  /** The empty string is contained in every string (`"abc".includes("")`). */
  lemma EmptyIsContained(s: string)
    ensures Contains(s, "")
  {
    assert IsPrefix("", s);
  }

  /** Every character of a contained string occurs in the containing one. */
  lemma {:induction false} ContainsKeepsChars(s: string, q: string, c: char)
    requires Contains(s, q)
    requires c in q
    ensures c in s
    decreases |s|
  {
    if IsPrefix(q, s) {
      var k :| 0 <= k < |q| && q[k] == c;
      assert s[k] == c;
    } else {
      ContainsKeepsChars(s[1..], q, c);
    }
  }

  /** A string lacking one of the characters of `q` does not contain `q`. */
  lemma MissingCharExcludes(s: string, q: string, c: char)
    requires c in q && c !in s
    ensures !Contains(s, q)
  {
    if Contains(s, q) {
      ContainsKeepsChars(s, q, c);
    }
  }

  /** A string contains itself. */
  lemma ContainsSelf(s: string)
    ensures Contains(s, s)
  {
    assert IsPrefix(s, s);
  }
}

=== FILE: types.dfy ===
/** The closed enumerations and the skill record of the tech radar. In the
    application these are string-literal unions; here each is a datatype,
    with its string form and a predicate-like reader that records which
    strings the union admits (the application itself never checks them). */
module Types {
  import opened Wrappers

  /** Lifecycle stage of a skill on the radar. */
  datatype Status = Active | Learning | Assess | Archive

  /** Fixed classification bucket for grouping skills. */
  datatype Category = Languages | DataEngineering | Devops | Tools | SoftSkills | Business

  /** Private items are only visible to the admin. */
  datatype Visibility = Public | Private

  /** One technology or skill entry. */
  datatype TechItem = TechItem(
    id: string,
    name: string,
    category: Category,
    status: Status,
    visibility: Visibility,
    description: string,
    tags: seq<string>)

  /** The four statuses, in the order of the workspace columns. */
  const AllStatuses: seq<Status> := [Active, Learning, Assess, Archive]

  /** The six categories, in declaration order. */
  const AllCategories: seq<Category> := [Languages, DataEngineering, Devops, Tools, SoftSkills, Business]

  function StatusName(s: Status): string {
    match s
    case Active => "active"
    case Learning => "learning"
    case Assess => "assess"
    case Archive => "archive"
  }

  /** The literal set of the `Status` union: the strings that name a status.
      The application itself has no such reader (its types are erased and a
      loaded document passes any string through); this records which strings
      the union admits. */
  function ParseStatus(w: string): (r: Option<Status>)
    ensures r.Some? ==> StatusName(r.value) == w
    ensures r.None? ==> forall s :: StatusName(s) != w
  {
    if w == "active" then Some(Active)
    else if w == "learning" then Some(Learning)
    else if w == "assess" then Some(Assess)
    else if w == "archive" then Some(Archive)
    else None
  }

  function CategoryName(c: Category): string {
    match c
    case Languages => "languages"
    case DataEngineering => "data-engineering"
    case Devops => "devops"
    case Tools => "tools"
    case SoftSkills => "soft-skills"
    case Business => "business"
  }

  /** The literal set of the `Category` union: exactly the six category
      names are admitted (a record of the union, not an application reader). */
  function ParseCategory(w: string): (r: Option<Category>)
    ensures r.Some? ==> CategoryName(r.value) == w
    ensures r.None? ==> forall c :: CategoryName(c) != w
  {
    if w == "languages" then Some(Languages)
    else if w == "data-engineering" then Some(DataEngineering)
    else if w == "devops" then Some(Devops)
    else if w == "tools" then Some(Tools)
    else if w == "soft-skills" then Some(SoftSkills)
    else if w == "business" then Some(Business)
    else None
  }

  function VisibilityName(v: Visibility): string {
    match v
    case Public => "public"
    case Private => "private"
  }

  /** The literal set of the `Visibility` union: exactly "public" and
      "private" (a record of the union, not an application reader). */
  function ParseVisibility(w: string): (r: Option<Visibility>)
    ensures r.Some? ==> VisibilityName(r.value) == w
    ensures r.None? ==> forall v :: VisibilityName(v) != w
  {
    if w == "public" then Some(Public)
    else if w == "private" then Some(Private)
    else None
  }

  /** Reading back the string form of a status gives the same status. */
  lemma StatusRoundTrip(s: Status)
    ensures ParseStatus(StatusName(s)) == Some(s)
  {
  }

  lemma CategoryRoundTrip(c: Category)
    ensures ParseCategory(CategoryName(c)) == Some(c)
  {
  }

  lemma VisibilityRoundTrip(v: Visibility)
    ensures ParseVisibility(VisibilityName(v)) == Some(v)
  {
  }

  /** There are exactly four statuses, each listed once. */
  lemma StatusesAreClosed()
    ensures forall s: Status :: s in AllStatuses
    ensures |AllStatuses| == 4
    ensures forall i, j :: 0 <= i < j < |AllStatuses| ==> AllStatuses[i] != AllStatuses[j]
  {
    forall s: Status ensures s in AllStatuses {
      match s
      case Active => assert AllStatuses[0] == s;
      case Learning => assert AllStatuses[1] == s;
      case Assess => assert AllStatuses[2] == s;
      case Archive => assert AllStatuses[3] == s;
    }
  }

  /** There are exactly six categories, each listed once. */
  lemma CategoriesAreClosed()
    ensures forall c: Category :: c in AllCategories
    ensures |AllCategories| == 6
    ensures forall i, j :: 0 <= i < j < |AllCategories| ==> AllCategories[i] != AllCategories[j]
  {
    forall c: Category ensures c in AllCategories {
      match c
      case Languages => assert AllCategories[0] == c;
      case DataEngineering => assert AllCategories[1] == c;
      case Devops => assert AllCategories[2] == c;
      case Tools => assert AllCategories[3] == c;
      case SoftSkills => assert AllCategories[4] == c;
      case Business => assert AllCategories[5] == c;
    }
  }

  /** The other visibility: public becomes private and private public. */
  function Flip(v: Visibility): (w: Visibility)
    ensures w != v
  {
    if v == Public then Private else Public
  }

  /** Two records that differ at most in their visibility. */
  predicate SameExceptVisibility(a: TechItem, b: TechItem) {
    a.(visibility := b.visibility) == b
  }
}

=== FILE: wrappers.dfy ===
/** The Some/None datatype used where a result may be absent: a replacement
    document that does not parse, a string outside a union's literal set,
    a group column that renders nothing. */
module Wrappers {

  datatype Option<+T> = None | Some(value: T)
}
